=== FILE: README.md ===
# Swipe-to-reveal control: a Dafny model

This project models the core of a Vue 3 swipe-to-reveal control. In the control, a content panel is dragged horizontally by touch or mouse to uncover a left or right action panel. On release it snaps closed or fully open. The model has two pure state machines and the small pieces around them:

- **Pan-gesture recognizer** (`src/directives/touch-horizontal-pan.js`, modules `TouchPan` and `TouchPanGesture`).
  - The per-element context (`ctx`) holds a direction capability, the transient gesture record `ctx.event`, and one `grabbing` flag. That flag stands for the document-wide side effects: the grabbing cursor and the pointer-event and selection suppression classes.
  - `Start` returns the new context. `Move` and `End` also return the pan events handed to the handler.
  - `RunGesture` composes a press, any number of moves and a release.
- **Session state** (`src/composables/useSwipeState.ts`, module `SwipeSession`).
  - The `SwipeState` record and its initial values.
  - The notifications the control emits (`active`, `update:revealed`, `closed`, `revealed`, `leftRevealed`, `rightRevealed`).
  - Element refs are plain data. A panel carries its `clientWidth` and `offsetWidth`. The content carries the `translateX` offset last written to it.
- **Animator** (`src/composables/useSwipeAnimation.ts`, module `SwipeAnimation`).
  - The pending animation frame is one optional slot holding the target it will apply. `AnimateSlide` replaces it.
  - `RunFrame` is the frame callback. It clamps the target into `[-rightWidth, leftWidth]` and writes it to the content.
- **Reveal controller** (`src/composables/useSwipeReveal.ts`, module `SwipeReveal`): `Reveal`, `Close`, `RevealLeft` and `RevealRight`. Each returns the new session and the notifications it emitted, in order.
- **Gesture-to-reveal controller** (`src/composables/useSwipeGestures.ts`, modules `SwipeGestures` and `SwipeRuns`).
  - `OnPan` dispatches a pan event to the start, swipe or stop listener.
  - `Settle` is the release decision.
  - `RunPans` feeds a stream of pan events to `OnPan`. The `Scenario*` lemmas drive the recognizer and the controller together, from press to rest.

Numbers are exact `real`s. They stand for JavaScript numbers, but without NaN, infinities or double rounding. DOM widths are the subset type `Width` (never negative). Some values are inputs rather than reads:

- pointer positions;
- whether a mouse press used the primary button;
- the root element's position read at gesture start (`distanceSwiped`: its bounding-rectangle `left` minus its `clientLeft`), an unconstrained number (it is viewport-relative, so it can be negative);
- slot presence.

Points about the code that are easy to miss:

- `close()` is not idempotent on notifications. Calling it on an idle, closed control emits `update:revealed(false)` and `closed` again (`SwipeReveal.CloseReemits`).
- `ctx.end` keeps the gesture record `ctx.event`. It only reverts the document effects and maybe emits the final event.
  - The mouse path removes its document listeners on release.
  - `touchmove` and `touchend` stay attached for the element's whole life. So a move that arrives after a release is tracked on the kept record, for example from a second finger still on the screen. It emits an intermediate event after the final one, and the next release emits a second final event (`TouchPanGesture.MoveAfterTrackedReleaseEmits`).
- The animator clamps exactly to `[-rightWidth, leftWidth]`. It has no overshoot margin and no parallax.
- The gesture start always re-reads both panel widths when it claims a gesture.
- Nothing in `useSwipeState.ts`, `useSwipeGestures.ts`, `useSwipeReveal.ts` or `useSwipeAnimation.ts` assigns `timer`. It is only passed to `clearTimeout`, so it stays at its initial value.
- A release whose path distance equals the width of the revealed panel does not close the control, because the comparison is strict (`SwipeGestures.Settle`).

## Model

| member | source | states |
|---|---|---|
| TouchPan.GetDirection | src/directives/touch-horizontal-pan.js:6-17 | The capability always allows at least one axis, and `all` holds exactly when both axes are allowed. With no axis modifier or with both, every direction is allowed. With exactly one, only that axis is allowed and `all` is false. |
| TouchPan.ProcessChanges | src/directives/touch-horizontal-pan.js:19-55 | `origin + offset == position` and `last + delta == position`, per axis. `distance` is the absolute offset. The label always agrees with the sign of the offset on its own axis. A single-axis capability only produces labels for that axis. In two-axis mode the label is horizontal iff `distance.x >= distance.y`, so ties go to horizontal. |
| TouchPan.ShouldTrigger | src/directives/touch-horizontal-pan.js:57-67 | Always true with both axes allowed. Otherwise true iff the delta along the single allowed axis is nonzero. With no axis at all it is false, because `undefined` is falsy. |
| TouchPan.Start | src/directives/touch-horizontal-pan.js:122-140 | A press replaces the record. Origin and last point equal the press position. `detected` and `abort` are false, `isFirst` is true, and `mouse` records whether a mouse or touch started it. Capability and document effects are unchanged. |
| TouchPan.MouseStart | src/directives/touch-horizontal-pan.js:108-114 | A primary-button press starts exactly the gesture that `start(evt, true)` starts: a fresh mouse record at the press position. Any other button leaves the context unchanged. |
| TouchPan.Track | src/directives/touch-horizontal-pan.js:147-158 | Once detected, a move emits the processed event iff `shouldTrigger` holds. Then the last point becomes the emitted position and `isFirst` becomes false. A move that does not trigger changes nothing. |
| TouchPan.Move | src/directives/touch-horizontal-pan.js:142-184 | A move does nothing without a record or after an abort. Before detection, equal `\|dx\|` and `\|dy\|` change nothing. Any other move sets `detected`. That same move is the only one that assigns `abort`: `vertical ? dx > dy : dx < dy` when `all` is false, skipped for mouse gestures with `mouseAllDir`. After detection, `detected` and `abort` never change. The document effects go on only at a detecting move that does not abort; every other move leaves them as they were. A move emits at most one event: exactly what `processChanges` computes against the record before the move, so its label, `isMouse` and `delta` are the processed ones. After an emission the record's last point is the emitted position and `isFirst` is false. |
| TouchPan.Detect | src/directives/touch-horizontal-pan.js:161-183 | The detecting move commits `detected` and decides `abort` by the axis rule. It turns the document effects on iff the gesture is not aborted, and emits at most the processed changes of the unclassified record. |
| TouchPan.End | src/directives/touch-horizontal-pan.js:186-204 | A release always clears the document effects when a record exists, and keeps the record. It emits exactly one event iff the gesture was detected, not aborted, and already emitted. That event is final, not first, and is exactly what `processChanges(evt, ctx, true)` computes: offset from the origin, `delta` from the last emitted point, and the processed label and `isMouse`. |
| TouchPanGesture.RunMoves | src/directives/touch-horizontal-pan.js:142-184 | A run of moves emits at most one event per move. It never changes the capability, and it is silent without a record. |
| TouchPanGesture.StartEstablishesTracking | src/directives/touch-horizontal-pan.js:128-139 | A fresh record satisfies the tracking invariant with nothing emitted. |
| TouchPanGesture.MoveKeepsTracking | src/directives/touch-horizontal-pan.js:142-184 | One move preserves the tracking invariant. The invariant covers: `isFirst` iff nothing emitted yet; the last point is the last emission; emissions only while detected and not aborted; effects on during tracking; offsets from the origin; each delta is the difference of consecutive offsets. |
| TouchPanGesture.RunMovesKeepsTracking | src/directives/touch-horizontal-pan.js:142-184 | Any number of moves after a press preserve the tracking invariant. |
| TouchPanGesture.GestureEmitsCanonicalStream | src/directives/touch-horizontal-pan.js:122-204 | A whole gesture emits first, then intermediate events, then at most one final event. Only index 0 is first. Only the last event, and never index 0, can be final. Every offset is taken from the press position and every distance is the absolute offset. The document effects are off afterwards. |
| TouchPanGesture.FinalIffTracked | src/directives/touch-horizontal-pan.js:195-203 | The release emits its final event exactly when the moves already emitted at least one event. |
| TouchPanGesture.ClassificationFrozen | src/directives/touch-horizontal-pan.js:145-175 | Direction lock: after detection, no sequence of moves changes `detected` or `abort`. |
| TouchPanGesture.AbortedGestureIsSilent | src/directives/touch-horizontal-pan.js:143-145 | An aborted gesture ignores every later move and emits nothing. |
| TouchPanGesture.DetectionEmitsFirst | src/directives/touch-horizontal-pan.js:161-183 | With a valid capability, the detecting move of a gesture that is not aborted emits the first event. The one exception is a mouse gesture with `mouseAllDir` on a single-axis capability: there the abort check is skipped, and the move may have no displacement on the allowed axis. |
| TouchPanGesture.MoveAfterTrackedReleaseEmits | src/directives/touch-horizontal-pan.js:142-204 | As written: a release keeps a tracked record. A later triggering move then emits a non-final event after the final one, and a second release emits another final event. |
| SwipeSession.UseSwipeState | src/composables/useSwipeState.ts:17-33 | A new session is idle: not active and no pending frame. `innerRevealed` is the argument. Both widths and `startLeft` are 0, there is no timer, and all element refs are absent. |
| SwipeSession.DefaultSwipeState | src/composables/useSwipeState.ts:17-19 | Without an argument the session starts idle and closed. |
| SwipeAnimation.GetSlotWidth | src/composables/useSwipeAnimation.ts:5-7 | An absent slot measures 0. A present one measures its `offsetWidth`. |
| SwipeAnimation.Clamp | src/composables/useSwipeAnimation.ts:20-24 | The result always lies in `[-rightWidth, leftWidth]`. A target inside that interval is unchanged. A target beyond either end becomes that end. |
| SwipeAnimation.ClampPreservesSign | src/composables/useSwipeAnimation.ts:20-24 | The clamp keeps the sign of the target. It yields 0 exactly for target 0, or when the width on the target's side is 0. |
| SwipeAnimation.ClampIdempotent | src/composables/useSwipeAnimation.ts:20-24 | Clamping an already clamped offset leaves it unchanged. |
| SwipeAnimation.ClampIsStandardClamp | src/composables/useSwipeAnimation.ts:20-24 | The sign-directed clamp equals the textbook `max(-rightWidth, min(to, leftWidth))`. |
| SwipeAnimation.AbsentSlotClampsToZero | src/composables/useSwipeAnimation.ts:5-24 | A side whose slot is absent cannot be dragged into: targets toward it clamp to 0. |
| SwipeAnimation.AnimateSlide | src/composables/useSwipeAnimation.ts:9-14 | A request replaces any pending frame by one for the new target and changes nothing else. |
| SwipeAnimation.RunFrame | src/composables/useSwipeAnimation.ts:14-28 | After the frame nothing is pending. With a content element, the written offset is the clamped target and lies within the current panel widths. Without one, nothing is written. |
| SwipeAnimation.AnimateAll | src/composables/useSwipeAnimation.ts:9-14 | A burst of requests changes only the pending frame. |
| SwipeAnimation.FrameCoalescing | src/composables/useSwipeAnimation.ts:9-28 | After any non-empty burst of requests, only the last target is pending, and the frame that runs writes exactly that target, clamped. |
| SwipeReveal.Downgrade | src/composables/useSwipeReveal.ts:24-26 | A request is kept or becomes closed. It is kept whenever its panel exists. An open result always has its panel. |
| SwipeReveal.Reveal | src/composables/useSwipeReveal.ts:19-55 | It is a no-op, with no notifications, exactly when a gesture is active and the request equals `innerRevealed`. Otherwise `innerRevealed` becomes the downgraded request, and the first notification is `update:revealed` carrying that value. The pending frame targets the resting offset: 0, `+leftActionsWidth` or `-rightActionsWidth`. Closing emits `closed` and nothing else. Opening emits `revealed{side}` and then the side notification. The revealed side's width is re-read only when `recalculateWidth` is set. Gesture flag, snapshot, timer and refs are untouched. |
| SwipeReveal.Close | src/composables/useSwipeReveal.ts:57-60 | It does nothing while active. Otherwise it closes, targets offset 0, and emits exactly `update:revealed(false)` then `closed`. Neither action width is written. |
| SwipeReveal.RevealLeft | src/composables/useSwipeReveal.ts:62-65 | It does nothing while active or without a left panel. Otherwise it reveals left at the freshly read `clientWidth`, targets `+clientWidth`, and emits the three left notifications. `rightActionsWidth` is not written. |
| SwipeReveal.RevealRight | src/composables/useSwipeReveal.ts:67-70 | It does nothing while active or without a right panel. Otherwise it reveals right at the freshly read `clientWidth`, targets `-clientWidth`, and emits the three right notifications. `leftActionsWidth` is not written. |
| SwipeReveal.CloseReemits | src/composables/useSwipeReveal.ts:57-60 | Closing an idle control twice emits the same two notifications twice, so `close` is not notification-idempotent. |
| SwipeReveal.RevealRestsAtRestingOffset | src/composables/useSwipeReveal.ts:31-54 | After a re-measuring reveal and its frame, the content sits at the resting offset of the new state. This assumes panels whose `clientWidth` does not exceed their `offsetWidth`. |
| SwipeReveal.RevealLeftThenClose | src/composables/useSwipeReveal.ts:57-65 | Round trip: `revealLeft(); close()`, with frames run, ends closed with the content at exactly 0. The notifications are the three left ones followed by the two closing ones. |
| SwipeGestures.ClientWidth | src/composables/useSwipeGestures.ts:44-49 | The width snapshot is the panel's `clientWidth`, or 0 when the ref is absent. |
| SwipeGestures.StartListener | src/composables/useSwipeGestures.ts:41-56 | A first event with `distance.y <= 5` claims the gesture: the session turns active, both widths are snapshot, `startLeft` becomes the root's position read (`distanceSwiped`), and exactly `active(true)` is emitted. Revealed state, frame, timer and refs are unchanged. A larger `distance.y` changes nothing. |
| SwipeGestures.SwipeTarget | src/composables/useSwipeGestures.ts:58-63 | The drag target is `startLeft + offset.x` or 0. It is never positive without a left slot and never negative without a right slot. It passes through unchanged whenever it points at an existing slot, or at 0. |
| SwipeGestures.SwipeListener | src/composables/useSwipeGestures.ts:58-63 | An intermediate event only reschedules the frame to the drag target and emits nothing. |
| SwipeGestures.Settle | src/composables/useSwipeGestures.ts:69-81 | It reveals left only if the final offset is positive, and right only if it is not. From closed, it stays closed iff `\|offset.x\| <= threshold` (inclusive). From a revealed position, it closes iff `threshold <= distance.x <` the width of the side it started on. |
| SwipeGestures.StopListener | src/composables/useSwipeGestures.ts:65-82 | Release always ends the session. It emits `active(false)` first, then `update:revealed` with the new state. The new state is the downgraded settle decision, and the frame targets its resting offset. After `update:revealed` comes `closed`, or `revealed{side}` then the side notification. The width snapshots are not re-read, and `startLeft`, the timer and all element refs are unchanged. |
| SwipeGestures.RevealNotesHaveNoActive | src/composables/useSwipeReveal.ts:19-55 | A reveal from an inactive session emits at least two notifications, none of them `active`. |
| SwipeGestures.OnPan | src/composables/useSwipeGestures.ts:84-90 | It changes nothing while disabled. A first event goes to the start listener. Other events are ignored while inactive. A final event goes to the stop listener and any other to the swipe listener. It emits `active(true)` only on a first event, leaving the session active. It emits `active(false)` only on a final event that ends an active session. |
| SwipeGestures.SettleExactReturnGoesRight | src/composables/useSwipeGestures.ts:69-81 | As written: dragging a left-revealed control back by exactly the panel width brings the offset to 0, yet settles on the right side. |
| SwipeGestures.SettleFurtherOpenCloses | src/composables/useSwipeGestures.ts:71-79 | As written: pulling a left-revealed control further open by at least the threshold, but less than the panel width, closes it. Only the path distance is compared, not its direction. |
| SwipeRuns.RunPans | src/composables/useSwipeGestures.ts:84-90 | Feeding a stream to `onPan` never touches the root ref, and does nothing while disabled. The root is needed only when some first event is claimed. |
| SwipeRuns.ActiveNotificationsPaired | src/composables/useSwipeGestures.ts:84-90 | Over any stream of pan events starting inactive, every `active(false)` immediately follows an `active(true)`. The session is active exactly when the last `active` notification said true. |
| SwipeRuns.NonFirstIgnoredWhileInactive | src/composables/useSwipeGestures.ts:86-87 | A stream without first events leaves an inactive session unchanged and emits nothing. |
| SwipeRuns.HorizontalGesture | src/directives/touch-horizontal-pan.js:142-204 | For a horizontal-only context, a press, two moves along one row and a release emit a first event (zero vertical distance), an intermediate one and a final one. Both of the last two carry the offset of the release point. |
| SwipeRuns.SessionNoRightPanel | src/composables/useSwipeGestures.ts:58-81 | Without a right panel, a 50px drag left schedules offset 0 while dragging. It reports `active` true then false, settles closed, and rests at 0. |
| SwipeRuns.ScenarioNoRightPanel | src/composables/useSwipeGestures.ts:58-81 | The same outcome, driven through the recognizer from the press. |
| SwipeRuns.SessionRevealLeft | src/composables/useSwipeGestures.ts:69-81 | With an 80px left panel and a 10px threshold, a 40px drag right settles left. It emits the left notifications and rests at +80. |
| SwipeRuns.ScenarioRevealLeft | src/composables/useSwipeGestures.ts:69-81 | The same outcome, driven through the recognizer from the press. |
| SwipeRuns.SessionDragBackCloses | src/composables/useSwipeGestures.ts:71-79 | From left-revealed at 80px, a 75px drag back settles closed and rests at 0. |
| SwipeRuns.ScenarioDragBackCloses | src/composables/useSwipeGestures.ts:71-79 | The same outcome, driven through the recognizer from the press. |
| SwipeRuns.ThresholdBoundary | src/composables/useSwipeGestures.ts:71-72 | From closed, a release exactly `threshold` away settles closed, and one pixel further settles left when the left panel exists. |

## Left out

- Listener registration and teardown are not modelled: `beforeMount` wiring, `updated`, `unmounted`, passive and capture options, and `handleEvent`'s `preventDefault`/`stopPropagation`. They are DOM plumbing. Any move or release may be applied to any context.
- `mouseEnd` is `End` plus listener removal, so it has no separate member.
- The observer registry (`setObserver`, `removeObserver`) is not part of this model, and neither are `position`, `leftClick` and `listenOpts`. Positions and the primary-button test are inputs.
- `areEqual` is modelled as plain equality, and `translateX` as the offset written to the content.
- The pan event's `evt` and `duration` fields are omitted, because `duration` reads the wall clock.
- The `close` callback carried by the `revealed`, `leftRevealed` and `rightRevealed` payloads is omitted. It is the same `close` operation that is modelled.
- Real `requestAnimationFrame`/`cancelAnimationFrame` scheduling is replaced by one pending-target slot. `useSwipeAnimation.ts` leaves a stale frame handle behind after the frame runs. The model clears the slot instead, which makes no difference because cancelling a handle that already ran does nothing.
- CSS class toggles on the root (`swipeout--no-transition`) are left out. The document-wide cursor and classes are the single `grabbing` flag.
- `clearTimeout` on gesture start is left out. Nothing in `useSwipeState.ts`, `useSwipeGestures.ts`, `useSwipeReveal.ts` or `useSwipeAnimation.ts` assigns `timer`.
- Panel widths (`clientWidth`, `offsetWidth`) are passed in as nonnegative numbers. The root's position read (`distanceSwiped`) is passed in as an arbitrary number; layout, which decides its value, is not modelled.
- SwipeRuns.SessionDragBackCloses: assumes the root's position read at gesture start is 80, the resting offset of the left-revealed content. Nothing in `useSwipeGestures.ts`, `useSwipeReveal.ts` or `useSwipeAnimation.ts` relates that read to the content's `translateX`; the same holds for `SwipeRuns.ScenarioDragBackCloses`.
- `innerRevealed` is modelled as `false | "left" | "right"`. The `string | boolean` type in `useSwipeState.ts` would also admit other strings or `true` as the initial value.
- NaN and infinite coordinates are not modelled.
- Positions, offsets, distances and widths are exact reals, so IEEE double rounding is not modelled at the `===`, `<=`, `>=` and `<` comparisons. Example: with `threshold = 0.2`, a drag from x = 0.1 to x = 0.3 has `distance.x` exactly 0.2 in the model. In doubles it is `0.19999999999999998`, so the threshold comparison (`useSwipeGestures.ts:73`) can differ.
- TouchPanGesture.GestureEmitsCanonicalStream: covers one press, its moves and one release. Touch moves after the release still reach the kept record, so the stream as a whole need not be canonical (see `TouchPanGesture.MoveAfterTrackedReleaseEmits`).
- SwipeGestures.StartListener: requires the root ref whenever the event claims the gesture. `useSwipeGestures.ts` dereferences it there with a non-null assertion (line 37) and would throw without it.

=== FILE: common.dfy ===
/** Shared vocabulary of the swipe-to-reveal model: optional values, the
    absolute value and min/max of JavaScript numbers, and the nonnegative
    pixel widths that DOM measurements produce. */
module Common {

  /** A value that may be absent: a `null` element ref, an `undefined` handle. */
  datatype Option<+T> = None | Some(value: T)

  /** A width read from the DOM (`clientWidth`, `offsetWidth`); never negative. */
  type Width = w: real | 0.0 <= w

  /** `Math.abs` on a finite number. */
  function Abs(x: real): (r: real)
    ensures 0.0 <= r
    ensures r == x || r == -x
  {
    if x < 0.0 then -x else x
  }

  /** `Math.min` of two finite numbers. */
  function Min(a: real, b: real): (r: real)
    ensures r <= a && r <= b
    ensures r == a || r == b
  {
    if a <= b then a else b
  }

  /** `Math.max` of two finite numbers. */
  function Max(a: real, b: real): (r: real)
    ensures a <= r && b <= r
    ensures r == a || r == b
  {
    if a <= b then b else a
  }
}

=== FILE: swipe_animation.dfy ===
/** The animator of `useSwipeAnimation.ts`. `AnimateSlide` replaces whatever
    frame is pending by one that will move the content to `to`; `RunFrame` is
    the animation-frame callback, which clamps the target into the widths of
    the panels present at that moment and writes it to the content. Because
    the pending frame is a single optional slot, at most one is ever waiting. */
module SwipeAnimation {
  import opened Common
  import opened SwipeSession

  /** `getSlotWidth`: a panel's `offsetWidth`, 0 when the ref is absent. */
  function GetSlotWidth(slot: Option<Panel>): (w: Width)
    ensures slot.None? ==> w == 0.0
    ensures slot.Some? ==> w == slot.value.offsetWidth
  {
    if slot.Some? then slot.value.offsetWidth else 0.0
  }

  /** The limit `animateSlide` applies: a positive target is capped by the
      left width, a negative one by the right width, and 0 stays 0. The
      result is the point of `[-rightWidth, leftWidth]` nearest to `to`. */
  function Clamp(to: real, leftWidth: Width, rightWidth: Width): (r: real)
    ensures -(rightWidth as real) <= r <= leftWidth
    ensures -(rightWidth as real) <= to <= leftWidth ==> r == to
    ensures leftWidth < to ==> r == leftWidth
    ensures to < -(rightWidth as real) ==> r == -(rightWidth as real)
  {
    if to > 0.0 then Min(to, leftWidth)
    else if to < 0.0 then Max(to, -(rightWidth as real))
    else to
  }

  /** The clamp never moves the content to the side opposite the target. */
  lemma ClampPreservesSign(to: real, leftWidth: Width, rightWidth: Width)
    ensures 0.0 < to ==> 0.0 <= Clamp(to, leftWidth, rightWidth)
    ensures to < 0.0 ==> Clamp(to, leftWidth, rightWidth) <= 0.0
    ensures to == 0.0 ==> Clamp(to, leftWidth, rightWidth) == 0.0
    ensures Clamp(to, leftWidth, rightWidth) == 0.0 <==>
              || to == 0.0
              || (0.0 < to && leftWidth == 0.0)
              || (to < 0.0 && rightWidth == 0.0)
  {
  }

  /** Clamping an already clamped offset leaves it unchanged. */
  lemma ClampIdempotent(to: real, leftWidth: Width, rightWidth: Width)
    ensures Clamp(Clamp(to, leftWidth, rightWidth), leftWidth, rightWidth) == Clamp(to, leftWidth, rightWidth)
  {
  }

  /** The sign-directed clamp agrees with the textbook clamp `max(lo, min(to, hi))`. */
  lemma ClampIsStandardClamp(to: real, leftWidth: Width, rightWidth: Width)
    ensures Clamp(to, leftWidth, rightWidth) == Max(-(rightWidth as real), Min(to, leftWidth))
  {
  }

  /** A side whose panel is absent cannot be dragged into: it clamps to 0. */
  lemma AbsentSlotClampsToZero(to: real, left: Option<Panel>, right: Option<Panel>)
    ensures left.None? && 0.0 <= to ==> Clamp(to, GetSlotWidth(left), GetSlotWidth(right)) == 0.0
    ensures right.None? && to <= 0.0 ==> Clamp(to, GetSlotWidth(left), GetSlotWidth(right)) == 0.0
  {
  }

  /** `animateSlide(to)`: cancel the pending frame, if any, and schedule one for `to`. */
  function AnimateSlide(s: SwipeState, to: real): (r: SwipeState)
    ensures r.frame == Some(to)
    ensures r.(frame := s.frame) == s
  {
    s.(frame := Some(to))
  }

  /** The animation-frame callback. With a content element it writes the
      clamped target, within the widths of the panels present now; without
      one nothing is written. Either way no frame is pending afterwards. */
  function RunFrame(s: SwipeState): (r: SwipeState)
    ensures r.frame.None?
    ensures s.frame.None? ==> r == s
    ensures r.contentRef.Some? <==> s.contentRef.Some?
    ensures s.contentRef.None? || s.frame.None? ==> r.contentRef == s.contentRef
    ensures s.frame.Some? && s.contentRef.Some? ==>
              && r.contentRef.value.transform.Some?
              && -(GetSlotWidth(s.rightRef) as real) <= r.contentRef.value.transform.value <= GetSlotWidth(s.leftRef)
              && r.contentRef.value.transform.value ==
                   Clamp(s.frame.value, GetSlotWidth(s.leftRef), GetSlotWidth(s.rightRef))
    ensures r.(frame := s.frame, contentRef := s.contentRef) == s
  {
    match s.frame
    case None => s
    case Some(to) =>
      match s.contentRef
      case None => s.(frame := None)
      case Some(content) =>
        var applied := Clamp(to, GetSlotWidth(s.leftRef), GetSlotWidth(s.rightRef));
        s.(frame := None, contentRef := Some(content.(transform := Some(applied))))
  }

  /** Several `animateSlide` calls before the next frame, in order. */
  function AnimateAll(s: SwipeState, targets: seq<real>): (r: SwipeState)
    ensures r.(frame := s.frame) == s
    ensures |targets| == 0 ==> r == s
    decreases |targets|
  {
    if |targets| == 0 then s else AnimateAll(AnimateSlide(s, targets[0]), targets[1..])
  }

  /** Frame coalescing: after any burst of requests only the last target is
      pending, and the frame that runs applies exactly that target, clamped. */
  lemma {:induction false} FrameCoalescing(s: SwipeState, targets: seq<real>)
    requires |targets| > 0
    ensures AnimateAll(s, targets).frame == Some(targets[|targets| - 1])
    ensures s.contentRef.Some? ==>
              RunFrame(AnimateAll(s, targets)).contentRef.value.transform ==
                Some(Clamp(targets[|targets| - 1], GetSlotWidth(s.leftRef), GetSlotWidth(s.rightRef)))
    decreases |targets|
  {
    if |targets| > 1 {
      FrameCoalescing(AnimateSlide(s, targets[0]), targets[1..]);
    }
  }
}

=== FILE: swipe_gestures.dfy ===
/** The gesture-to-reveal controller of `useSwipeGestures.ts`. `OnPan`
    receives the recognizer's pan events and dispatches them: a first event
    may start a session, intermediate events drive the animator, and the
    final event settles the control closed, left or right through `Reveal`.
    The start reads the root element's horizontal position, its
    bounding-rectangle `left` minus its `clientLeft`; that number is an
    input of the start. */
module SwipeGestures {
  import opened Common
  import opened TouchPan
  import opened SwipeSession
  import opened SwipeAnimation
  import opened SwipeReveal

  /** The control's props and slot presence as the controller sees them. */
  datatype Config = Config(threshold: real, disabled: bool, hasLeftSlot: bool, hasRightSlot: bool)

  /** A first event whose vertical distance exceeds this many pixels is
      taken for a scroll and not claimed. */
  const VerticalTolerance: real := 5.0

  /** The width a panel ref reports through `clientWidth`, 0 when absent. */
  function ClientWidth(slot: Option<Panel>): (w: Width)
    ensures slot.None? ==> w == 0.0
    ensures slot.Some? ==> w == slot.value.clientWidth
  {
    if slot.Some? then slot.value.clientWidth else 0.0
  }

  /** `startListener`. A first event with a vertical distance of at most 5px
      claims the gesture: both widths are snapshot, the root's position read (`distanceSwiped`)
      becomes `startLeft`, the session turns active and `active(true)` is
      emitted. A larger vertical distance leaves everything as it is. The
      root ref is dereferenced with `!` on the claiming path, so `useSwipeGestures.ts`
      requires it there. */
  function StartListener(s: SwipeState, pan: PanEvent, swiped: real): (r: Outcome)
    requires pan.distance.y <= VerticalTolerance ==> s.elRef.Some?
    ensures VerticalTolerance < pan.distance.y ==> r == Outcome(s, [])
    ensures pan.distance.y <= VerticalTolerance ==>
              && r.state.isActive
              && r.state.leftActionsWidth == ClientWidth(s.leftRef)
              && r.state.rightActionsWidth == ClientWidth(s.rightRef)
              && r.state.startLeft == swiped
              && r.notes == [ActiveNote(true)]
              && r.state.innerRevealed == s.innerRevealed
              && r.state.frame == s.frame
              && r.state.timer == s.timer
              && r.state.contentRef == s.contentRef
              && r.state.leftRef == s.leftRef && r.state.rightRef == s.rightRef
              && r.state.elRef == s.elRef
  {
    if pan.distance.y <= VerticalTolerance then
      var s' := s.(
        leftActionsWidth := ClientWidth(s.leftRef),
        rightActionsWidth := ClientWidth(s.rightRef),
        startLeft := swiped,
        isActive := true);
      Outcome(s', [ActiveNote(true)])
    else
      Outcome(s, [])
  }

  /** The target of an intermediate move: `startLeft + offset.x`, forced to 0
      when it points at a side whose slot is absent. */
  function SwipeTarget(startLeft: real, offsetX: real, hasLeftSlot: bool, hasRightSlot: bool): (t: real)
    ensures t == startLeft + offsetX || t == 0.0
    ensures 0.0 < t ==> hasLeftSlot
    ensures t < 0.0 ==> hasRightSlot
    ensures (hasLeftSlot || startLeft + offsetX <= 0.0) && (hasRightSlot || 0.0 <= startLeft + offsetX) ==>
              t == startLeft + offsetX
  {
    var newX := offsetX + startLeft;
    if !hasLeftSlot && newX > 0.0 then 0.0
    else if !hasRightSlot && newX < 0.0 then 0.0
    else newX
  }

  /** `swipeListener`: schedules the content to follow the drag, emits nothing. */
  function SwipeListener(s: SwipeState, cfg: Config, pan: PanEvent): (r: Outcome)
    ensures r.notes == []
    ensures r.state.frame == Some(SwipeTarget(s.startLeft, pan.offset.x, cfg.hasLeftSlot, cfg.hasRightSlot))
    ensures r.state.(frame := s.frame) == s
  {
    Outcome(AnimateSlide(s, SwipeTarget(s.startLeft, pan.offset.x, cfg.hasLeftSlot, cfg.hasRightSlot)), [])
  }

  /** The settle decision on release, a function of the drag origin, the
      net and path distance of the drag, the snapshot widths and the
      threshold. From the closed position the control stays closed iff the
      net displacement is within the threshold (inclusive). From a revealed
      position it closes iff the path distance reaches the threshold but
      stays strictly below the width of the panel it started on. Otherwise
      it reveals the side the content ends on: left iff the final offset is
      positive. */
  function Settle(startLeft: real, offsetX: real, distanceX: real,
                  leftWidth: Width, rightWidth: Width, threshold: real): (r: Revealed)
    ensures r == Open(Left) ==> 0.0 < startLeft + offsetX
    ensures r == Open(Right) ==> startLeft + offsetX <= 0.0
    ensures startLeft == 0.0 ==> (r == Closed <==> Abs(offsetX) <= threshold)
    ensures 0.0 < startLeft ==> (r == Closed <==> threshold <= distanceX < leftWidth)
    ensures startLeft < 0.0 ==> (r == Closed <==> threshold <= distanceX < rightWidth)
  {
    var newX := startLeft + offsetX;
    if || (startLeft == 0.0 && Abs(newX) <= threshold)
       || (distanceX >= threshold &&
           ((startLeft > 0.0 && distanceX < leftWidth) || (startLeft < 0.0 && distanceX < rightWidth)))
    then Closed
    else if newX > 0.0 then Open(Left)
    else Open(Right)
  }

  /** `stopListener`: the session turns inactive, `active(false)` is
      emitted, and the settle decision is handed to `reveal` without
      re-measuring; being inactive, that reveal is never a no-op. */
  function StopListener(s: SwipeState, cfg: Config, pan: PanEvent): (r: Outcome)
    ensures !r.state.isActive
    ensures |r.notes| >= 3
    ensures r.notes[0] == ActiveNote(false)
    ensures r.notes[1] == UpdateRevealedNote(r.state.innerRevealed)
    ensures r.state.innerRevealed ==
              Downgrade(s, Settle(s.startLeft, pan.offset.x, pan.distance.x,
                                  s.leftActionsWidth, s.rightActionsWidth, cfg.threshold))
    ensures r.state.frame == Some(RestingOffset(r.state))
    ensures r.state.leftActionsWidth == s.leftActionsWidth
    ensures r.state.rightActionsWidth == s.rightActionsWidth
    ensures ActiveFlags(r.notes) == [false]
    ensures r.state.innerRevealed == Closed ==>
              r.notes == [ActiveNote(false), UpdateRevealedNote(Closed), ClosedNote]
    ensures r.state.innerRevealed == Open(Left) ==>
              r.notes == [ActiveNote(false), UpdateRevealedNote(Open(Left)), RevealedNote(Left), LeftRevealedNote]
    ensures r.state.innerRevealed == Open(Right) ==>
              r.notes == [ActiveNote(false), UpdateRevealedNote(Open(Right)), RevealedNote(Right), RightRevealedNote]
    ensures SameSession(r.state, s.(isActive := false))
  {
    var s' := s.(isActive := false);
    var decision := Settle(s.startLeft, pan.offset.x, pan.distance.x,
                           s.leftActionsWidth, s.rightActionsWidth, cfg.threshold);
    var revealed := Reveal(s', decision, false);
    RevealNotesHaveNoActive(s', decision);
    ActiveFlagsAppend([ActiveNote(false)], revealed.notes);
    Outcome(revealed.state, [ActiveNote(false)] + revealed.notes)
  }

  /** `reveal` never emits `active`. */
  lemma RevealNotesHaveNoActive(s: SwipeState, dir: Revealed)
    requires !s.isActive
    ensures |Reveal(s, dir, false).notes| >= 2
    ensures ActiveFlags(Reveal(s, dir, false).notes) == []
  {
    var notes := Reveal(s, dir, false).notes;
    assert ActiveFlags(notes[2..]) == [];
    assert ActiveFlags(notes[1..]) == [];
  }

  /** `onPan`. Nothing happens while disabled; a first event goes to the
      start listener; other events are ignored unless a session is active;
      a final event settles, any other one drags. */
  function OnPan(s: SwipeState, cfg: Config, pan: PanEvent, swiped: real): (r: Outcome)
    requires !cfg.disabled && pan.isFirst && pan.distance.y <= VerticalTolerance ==> s.elRef.Some?
    ensures cfg.disabled ==> r == Outcome(s, [])
    ensures !cfg.disabled && !pan.isFirst && !s.isActive ==> r == Outcome(s, [])
    ensures !cfg.disabled && pan.isFirst ==> r == StartListener(s, pan, swiped)
    ensures !cfg.disabled && !pan.isFirst && s.isActive && pan.isFinal ==> r == StopListener(s, cfg, pan)
    ensures !cfg.disabled && !pan.isFirst && s.isActive && !pan.isFinal ==> r == SwipeListener(s, cfg, pan)
    ensures r.state.elRef == s.elRef
    // `active` notifications: none, or `true` leaving the session active,
    // or `false` closing a session that was active
    ensures ActiveFlags(r.notes) == [] ==> r.state.isActive == s.isActive
    ensures || ActiveFlags(r.notes) == []
            || (ActiveFlags(r.notes) == [true] && pan.isFirst && r.state.isActive)
            || (ActiveFlags(r.notes) == [false] && pan.isFinal && s.isActive && !r.state.isActive)
  {
    if cfg.disabled then Outcome(s, [])
    else if pan.isFirst then StartListener(s, pan, swiped)
    else if !s.isActive then Outcome(s, [])
    else if pan.isFinal then StopListener(s, cfg, pan)
    else SwipeListener(s, cfg, pan)
  }

  /** As written, dragging a left-revealed control back by exactly the
      panel's width brings the content to 0 yet settles on the right side
      (which `Reveal` downgrades to closed only when there is no right panel). */
  lemma SettleExactReturnGoesRight(leftWidth: Width, rightWidth: Width, threshold: real)
    requires 0.0 < leftWidth && threshold <= leftWidth
    ensures Settle(leftWidth, -(leftWidth as real), leftWidth, leftWidth, rightWidth, threshold) == Open(Right)
  {
  }

  /** As written, pulling a left-revealed control further open by at least
      the threshold but less than the panel's width closes it: the path
      distance is compared, not its direction. */
  lemma SettleFurtherOpenCloses(startLeft: real, offsetX: real, leftWidth: Width, rightWidth: Width, threshold: real)
    requires 0.0 < startLeft && 0.0 < offsetX
    requires threshold <= offsetX < leftWidth
    ensures Settle(startLeft, offsetX, offsetX, leftWidth, rightWidth, threshold) == Closed
  {
  }
}

=== FILE: swipe_reveal.dfy ===
/** The reveal controller of `useSwipeReveal.ts`: `Reveal` moves the control
    to a resting state and emits its notifications; `Close`, `RevealLeft`
    and `RevealRight` are the public operations layered on it. Each returns
    the new session together with the notifications, in emission order. */
module SwipeReveal {
  import opened Common
  import opened SwipeSession
  import opened SwipeAnimation

  /** The offset the content rests at in the session's revealed state:
      0 when closed, `+leftActionsWidth` left, `-rightActionsWidth` right. */
  function RestingOffset(s: SwipeState): real {
    match s.innerRevealed
    case Closed => 0.0
    case Open(Left) => s.leftActionsWidth
    case Open(Right) => -(s.rightActionsWidth as real)
  }

  predicate HasPanel(s: SwipeState, side: Side) {
    match side
    case Left => s.leftRef.Some?
    case Right => s.rightRef.Some?
  }

  /** The fields reveal operations never touch: the gesture flag and snapshot,
      the timer and the element refs. */
  predicate SameSession(a: SwipeState, b: SwipeState) {
    && a.isActive == b.isActive
    && a.startLeft == b.startLeft
    && a.timer == b.timer
    && a.contentRef == b.contentRef
    && a.leftRef == b.leftRef
    && a.rightRef == b.rightRef
    && a.elRef == b.elRef
  }

  /** A request for a side whose panel ref is absent becomes a request to close. */
  function Downgrade(s: SwipeState, dir: Revealed): (d: Revealed)
    ensures d == Closed || d == dir
    ensures d.Open? ==> HasPanel(s, d.side)
    ensures dir.Open? && HasPanel(s, dir.side) ==> d == dir
  {
    if dir.Open? && !HasPanel(s, dir.side) then Closed else dir
  }

  /** `reveal(dir, recalculateWidth)`. A no-op exactly when a gesture is
      active and `dir` is already the revealed state. Otherwise the request
      is downgraded when its panel is absent, recorded in `innerRevealed`,
      announced by `update:revealed`, and the content is sent to the
      resting offset of the new state, followed by `closed`, or by
      `revealed` and the side-specific notification. The width of the
      revealed side is re-read only when `recalculateWidth` is set. */
  function Reveal(s: SwipeState, dir: Revealed, recalculateWidth: bool): (r: Outcome)
    ensures s.isActive && s.innerRevealed == dir ==> r == Outcome(s, [])
    ensures !(s.isActive && s.innerRevealed == dir) ==>
              && r.state.innerRevealed == Downgrade(s, dir)
              && |r.notes| > 0
              && r.notes[0] == UpdateRevealedNote(r.state.innerRevealed)
              && r.state.frame == Some(RestingOffset(r.state))
    ensures !(s.isActive && s.innerRevealed == dir) && r.state.innerRevealed == Closed ==>
              && r.notes == [UpdateRevealedNote(Closed), ClosedNote]
              && r.state.leftActionsWidth == s.leftActionsWidth
              && r.state.rightActionsWidth == s.rightActionsWidth
    ensures !(s.isActive && s.innerRevealed == dir) && r.state.innerRevealed == Open(Left) ==>
              && r.notes == [UpdateRevealedNote(Open(Left)), RevealedNote(Left), LeftRevealedNote]
              && r.state.leftActionsWidth ==
                   (if recalculateWidth then s.leftRef.value.clientWidth else s.leftActionsWidth)
              && r.state.rightActionsWidth == s.rightActionsWidth
    ensures !(s.isActive && s.innerRevealed == dir) && r.state.innerRevealed == Open(Right) ==>
              && r.notes == [UpdateRevealedNote(Open(Right)), RevealedNote(Right), RightRevealedNote]
              && r.state.rightActionsWidth ==
                   (if recalculateWidth then s.rightRef.value.clientWidth else s.rightActionsWidth)
              && r.state.leftActionsWidth == s.leftActionsWidth
    ensures SameSession(r.state, s)
  {
    if s.isActive && s.innerRevealed == dir then Outcome(s, [])
    else
      var d := Downgrade(s, dir);
      var s1 := s.(innerRevealed := d);
      match d
      case Closed =>
        Outcome(AnimateSlide(s1, 0.0), [UpdateRevealedNote(d), ClosedNote])
      case Open(Left) =>
        var w := if recalculateWidth then s.leftRef.value.clientWidth else s.leftActionsWidth;
        Outcome(AnimateSlide(s1.(leftActionsWidth := w), w),
                [UpdateRevealedNote(d), RevealedNote(Left), LeftRevealedNote])
      case Open(Right) =>
        var w := if recalculateWidth then s.rightRef.value.clientWidth else s.rightActionsWidth;
        Outcome(AnimateSlide(s1.(rightActionsWidth := w), -(w as real)),
                [UpdateRevealedNote(d), RevealedNote(Right), RightRevealedNote])
  }

  /** `close()`: nothing while a gesture is active; otherwise always closes
      again, re-measuring, and re-emits `update:revealed(false)` and `closed`
      even when the control is already closed. */
  function Close(s: SwipeState): (r: Outcome)
    ensures s.isActive ==> r == Outcome(s, [])
    ensures !s.isActive ==>
              && r.state.innerRevealed == Closed
              && r.state.frame == Some(0.0)
              && r.notes == [UpdateRevealedNote(Closed), ClosedNote]
    ensures r.state.leftActionsWidth == s.leftActionsWidth
    ensures r.state.rightActionsWidth == s.rightActionsWidth
    ensures SameSession(r.state, s)
  {
    if s.isActive then Outcome(s, []) else Reveal(s, Closed, true)
  }

  /** `revealLeft()`: nothing while active or without a left panel; otherwise
      reveals the left panel at its freshly measured width. */
  function RevealLeft(s: SwipeState): (r: Outcome)
    ensures s.isActive || s.leftRef.None? ==> r == Outcome(s, [])
    ensures !s.isActive && s.leftRef.Some? ==>
              && r.state.innerRevealed == Open(Left)
              && r.state.leftActionsWidth == s.leftRef.value.clientWidth
              && r.state.frame == Some(s.leftRef.value.clientWidth as real)
              && r.notes == [UpdateRevealedNote(Open(Left)), RevealedNote(Left), LeftRevealedNote]
    ensures r.state.rightActionsWidth == s.rightActionsWidth
    ensures SameSession(r.state, s)
  {
    if s.isActive || s.leftRef.None? then Outcome(s, []) else Reveal(s, Open(Left), true)
  }

  /** `revealRight()`: nothing while active or without a right panel;
      otherwise reveals the right panel at its freshly measured width. */
  function RevealRight(s: SwipeState): (r: Outcome)
    ensures s.isActive || s.rightRef.None? ==> r == Outcome(s, [])
    ensures !s.isActive && s.rightRef.Some? ==>
              && r.state.innerRevealed == Open(Right)
              && r.state.rightActionsWidth == s.rightRef.value.clientWidth
              && r.state.frame == Some(-(s.rightRef.value.clientWidth as real))
              && r.notes == [UpdateRevealedNote(Open(Right)), RevealedNote(Right), RightRevealedNote]
    ensures r.state.leftActionsWidth == s.leftActionsWidth
    ensures SameSession(r.state, s)
  {
    if s.isActive || s.rightRef.None? then Outcome(s, []) else Reveal(s, Open(Right), true)
  }

  /** `close()` is not idempotent on notifications: closing an idle, already
      closed control emits the same two notifications again. */
  lemma CloseReemits(s: SwipeState)
    requires !s.isActive
    ensures var once := Close(s);
            && once.state.innerRevealed == Closed
            && Close(once.state).notes == once.notes == [UpdateRevealedNote(Closed), ClosedNote]
  {
  }

  /** A panel's `clientWidth` never exceeds its `offsetWidth`, as in any DOM layout. */
  predicate PanelsWellFormed(s: SwipeState) {
    && (s.leftRef.Some? ==> s.leftRef.value.clientWidth <= s.leftRef.value.offsetWidth)
    && (s.rightRef.Some? ==> s.rightRef.value.clientWidth <= s.rightRef.value.offsetWidth)
  }

  /** At rest the content shows the revealed state: once the frame scheduled
      by a re-measuring reveal has run, the content's offset is the resting
      offset of the new state (0, `+leftActionsWidth` or `-rightActionsWidth`). */
  lemma RevealRestsAtRestingOffset(s: SwipeState, dir: Revealed)
    requires !(s.isActive && s.innerRevealed == dir)
    requires s.contentRef.Some?
    requires PanelsWellFormed(s)
    ensures var r := Reveal(s, dir, true);
            RunFrame(r.state).contentRef.value.transform == Some(RestingOffset(r.state))
  {
    var r := Reveal(s, dir, true);
    var to := RestingOffset(r.state);
    assert -(GetSlotWidth(r.state.rightRef) as real) <= to <= GetSlotWidth(r.state.leftRef);
  }

  /** Round trip: revealing the left panel and closing again, with the
      frames run in between, leaves the control closed with the content
      back at exactly 0. */
  lemma RevealLeftThenClose(s: SwipeState)
    requires !s.isActive && s.leftRef.Some? && s.contentRef.Some?
    ensures var shown := RevealLeft(s);
            var closed := Close(RunFrame(shown.state));
            && closed.state.innerRevealed == Closed
            && closed.state.frame == Some(0.0)
            && RunFrame(closed.state).contentRef.value.transform == Some(0.0)
            && shown.notes + closed.notes ==
                 [UpdateRevealedNote(Open(Left)), RevealedNote(Left), LeftRevealedNote,
                  UpdateRevealedNote(Closed), ClosedNote]
  {
  }
}

=== FILE: swipe_runs.dfy ===
/** Sequences of pan events fed to the controller, and whole interactions
    from press to rest: the recognizer's emissions are handed to `OnPan`,
    and the pending frame is run at the end. */
module SwipeRuns {
  import opened Common
  import opened TouchPan
  import opened TouchPanGesture
  import opened SwipeSession
  import opened SwipeAnimation
  import opened SwipeReveal
  import opened SwipeGestures

  /** A pan event together with the root's position read (bounding-rectangle
      `left` minus `clientLeft`) at the moment it arrives. */
  datatype PanInput = PanInput(pan: PanEvent, swiped: real)

  /** An input on which `onPan` reads the root element: a first event that
      the start listener claims. */
  predicate ClaimsRoot(cfg: Config, input: PanInput) {
    !cfg.disabled && input.pan.isFirst && input.pan.distance.y <= VerticalTolerance
  }

  /** The root is mounted whenever some input of the stream reads it. */
  predicate RootAvailable(s: SwipeState, cfg: Config, inputs: seq<PanInput>) {
    s.elRef.Some? || forall i :: 0 <= i < |inputs| ==> !ClaimsRoot(cfg, inputs[i])
  }

  /** `onPan` applied to each input in order; notifications are concatenated. */
  function RunPans(s: SwipeState, cfg: Config, inputs: seq<PanInput>): (r: Outcome)
    requires RootAvailable(s, cfg, inputs)
    ensures r.state.elRef == s.elRef
    ensures cfg.disabled ==> r == Outcome(s, [])
    decreases |inputs|
  {
    if |inputs| == 0 then Outcome(s, [])
    else
      var before := RunPans(s, cfg, inputs[..|inputs| - 1]);
      var last := inputs[|inputs| - 1];
      var step := OnPan(before.state, cfg, last.pan, last.swiped);
      Outcome(step.state, before.notes + step.notes)
  }

  /** Every `active(false)` comes right after an `active(true)`. */
  ghost predicate Paired(flags: seq<bool>) {
    forall i :: 0 <= i < |flags| && !flags[i] ==> 0 < i && flags[i - 1]
  }

  predicate LastIsTrue(flags: seq<bool>) {
    |flags| > 0 && flags[|flags| - 1]
  }

  /** Over any stream of pan events, starting inactive, `active(false)` is
      only ever emitted after a matching `active(true)`, and the session is
      active exactly when the last `active` notification said so. */
  lemma {:induction false} ActiveNotificationsPaired(s: SwipeState, cfg: Config, inputs: seq<PanInput>)
    requires RootAvailable(s, cfg, inputs) && !s.isActive
    ensures var r := RunPans(s, cfg, inputs);
            && Paired(ActiveFlags(r.notes))
            && (r.state.isActive <==> LastIsTrue(ActiveFlags(r.notes)))
    decreases |inputs|
  {
    if |inputs| > 0 {
      var front := inputs[..|inputs| - 1];
      var before := RunPans(s, cfg, front);
      ActiveNotificationsPaired(s, cfg, front);
      var last := inputs[|inputs| - 1];
      var step := OnPan(before.state, cfg, last.pan, last.swiped);
      ActiveFlagsAppend(before.notes, step.notes);
      PairedStep(ActiveFlags(before.notes), ActiveFlags(step.notes), before.state.isActive, step.state.isActive);
    }
  }

  /** One `onPan` call extends the `active` values by nothing, by `true`
      leaving the session active, or by `false` closing an active one. */
  lemma PairedStep(flags: seq<bool>, more: seq<bool>, wasActive: bool, nowActive: bool)
    requires Paired(flags) && (wasActive <==> LastIsTrue(flags))
    requires || (more == [] && nowActive == wasActive)
             || (more == [true] && nowActive)
             || (more == [false] && wasActive && !nowActive)
    ensures Paired(flags + more) && (nowActive <==> LastIsTrue(flags + more))
  {
    var all := flags + more;
    if more == [false] {
      assert all[|all| - 2] == flags[|flags| - 1];
    } else if more == [] {
      assert all == flags;
    }
  }

  /** Pan events arriving with no session active are ignored unless they are first events. */
  lemma {:induction false} NonFirstIgnoredWhileInactive(s: SwipeState, cfg: Config, inputs: seq<PanInput>)
    requires !s.isActive
    requires forall i :: 0 <= i < |inputs| ==> !inputs[i].pan.isFirst
    ensures RunPans(s, cfg, inputs) == Outcome(s, [])
    decreases |inputs|
  {
    if |inputs| > 0 {
      NonFirstIgnoredWhileInactive(s, cfg, inputs[..|inputs| - 1]);
    }
  }

  /** Every emitted pan event, paired with the same root position read. */
  function WithSwiped(evs: seq<PanEvent>, swiped: real): (inputs: seq<PanInput>)
    ensures |inputs| == |evs|
    ensures forall i :: 0 <= i < |evs| ==> inputs[i] == PanInput(evs[i], swiped)
  {
    seq(|evs|, i requires 0 <= i < |evs| => PanInput(evs[i], swiped))
  }

  /** A horizontal-only recognizer context with no gesture yet. */
  function HorizontalContext(): (ctx: Context)
    ensures ctx.direction == Capability(true, false, false)
    ensures ctx.event.None? && !ctx.grabbing
  {
    Context(GetDirection(Modifiers(true, false, false)), false, None, false)
  }

  /** An idle, closed control with content and root mounted and the given panels. */
  function Mounted(left: Option<Panel>, right: Option<Panel>): (s: SwipeState)
    ensures Idle(s) && s.innerRevealed == Closed && s.startLeft == 0.0
    ensures s.contentRef.Some? && s.elRef.Some?
    ensures s.leftRef == left && s.rightRef == right
  {
    UseSwipeState(Closed).(contentRef := Some(Content(None)), elRef := Some(Root), leftRef := left, rightRef := right)
  }

  /** A gesture of two moves, unfolded into its four transitions. */
  lemma GestureOfTwoMoves(ctx: Context, origin: Point, mouse: bool, p1: Point, p2: Point, release: Point)
    ensures var c0 := Start(ctx, origin, mouse);
            var m1 := Move(c0, p1);
            var m2 := Move(m1.ctx, p2);
            var e := End(m2.ctx, release);
            RunGesture(ctx, origin, mouse, [p1, p2], release) == Step(e.ctx, m1.emitted + m2.emitted + e.emitted)
  {
    var c0 := Start(ctx, origin, mouse);
    var moves := [p1, p2];
    assert moves[..1] == [p1];
    assert [p1][..0] == [];
    var m1 := Move(c0, p1);
    assert RunMoves(c0, [p1]) == Step(m1.ctx, [] + m1.emitted);
  }

  /** Three pan events fed in order, unfolded into the three `onPan` calls. */
  lemma PansOfThree(s: SwipeState, cfg: Config, a: PanInput, b: PanInput, c: PanInput)
    requires s.elRef.Some?
    ensures var o1 := OnPan(s, cfg, a.pan, a.swiped);
            var o2 := OnPan(o1.state, cfg, b.pan, b.swiped);
            var o3 := OnPan(o2.state, cfg, c.pan, c.swiped);
            && RunPans(s, cfg, [a, b]) == Outcome(o2.state, o1.notes + o2.notes)
            && RunPans(s, cfg, [a, b, c]) == Outcome(o3.state, o1.notes + o2.notes + o3.notes)
  {
    assert [a, b, c][..2] == [a, b];
    assert [a, b][..1] == [a];
    assert [a][..0] == [];
    var o1 := OnPan(s, cfg, a.pan, a.swiped);
    assert RunPans(s, cfg, [a]) == Outcome(o1.state, [] + o1.notes);
  }

  /** What the recognizer hands over for a press, two moves and a release:
      a first event, an intermediate one, and a final one at the release. */
  ghost predicate FirstMoveFinal(evs: seq<PanEvent>, midOffsetX: real, finalOffsetX: real) {
    && |evs| == 3
    && evs[0].isFirst && !evs[0].isFinal && evs[0].distance.y == 0.0
    && !evs[1].isFirst && !evs[1].isFinal && evs[1].offset.x == midOffsetX
    && !evs[2].isFirst && evs[2].isFinal
    && evs[2].offset.x == finalOffsetX && evs[2].distance.x == Abs(finalOffsetX)
  }

  /** A horizontal press at `origin`, moves along the same row to `p1` and
      `p2`, and a release at `p2`; the last move and the release share
      their offset. */
  lemma HorizontalGesture(origin: Point, x1: real, x2: real)
    requires x1 != origin.left && x2 != x1
    ensures FirstMoveFinal(
              RunGesture(HorizontalContext(), origin, false,
                         [Point(x1, origin.top), Point(x2, origin.top)], Point(x2, origin.top)).emitted,
              x2 - origin.left, x2 - origin.left)
  {
    var ctx := HorizontalContext();
    var p1 := Point(x1, origin.top);
    var p2 := Point(x2, origin.top);
    var c0 := Start(ctx, origin, false);
    var m1 := Move(c0, p1);
    var m2 := Move(m1.ctx, p2);
    var e := End(m2.ctx, p2);
    GestureOfTwoMoves(ctx, origin, false, p1, p2, p2);
    assert |m1.emitted| == 1 && m1.emitted[0].isFirst && m1.emitted[0].distance.y == 0.0;
    assert |m2.emitted| == 1;
    assert |e.emitted| == 1;
  }

  /** The controller side of the no-right-panel scenario, for any event stream of that shape. */
  lemma SessionNoRightPanel(evs: seq<PanEvent>)
    requires FirstMoveFinal(evs, -50.0, -50.0)
    ensures var s := Mounted(Some(Panel(80.0, 80.0)), None);
            var cfg := Config(10.0, false, true, false);
            var inputs := WithSwiped(evs, 0.0);
            && RunPans(s, cfg, inputs[..2]).state.frame == Some(0.0)
            && RunPans(s, cfg, inputs).state.innerRevealed == Closed
            && RunPans(s, cfg, inputs).notes ==
                 [ActiveNote(true), ActiveNote(false), UpdateRevealedNote(Closed), ClosedNote]
            && RunFrame(RunPans(s, cfg, inputs).state).contentRef == Some(Content(Some(0.0)))
  {
    var s := Mounted(Some(Panel(80.0, 80.0)), None);
    var cfg := Config(10.0, false, true, false);
    var inputs := WithSwiped(evs, 0.0);
    assert inputs == [PanInput(evs[0], 0.0), PanInput(evs[1], 0.0), PanInput(evs[2], 0.0)];
    assert inputs[..2] == [inputs[0], inputs[1]];
    PansOfThree(s, cfg, inputs[0], inputs[1], inputs[2]);
    var o1 := OnPan(s, cfg, evs[0], 0.0);
    assert o1.state.isActive && o1.notes == [ActiveNote(true)] && o1.state.startLeft == 0.0;
    var o2 := OnPan(o1.state, cfg, evs[1], 0.0);
    assert o2.state.frame == Some(0.0) && o2.notes == [] && o2.state.isActive;
    var o3 := OnPan(o2.state, cfg, evs[2], 0.0);
    assert o3.state.innerRevealed == Closed;
  }

  /** Drag without a right panel: a 50px drag to the left keeps the content
      at 0 while dragging, reports active then inactive, and settles closed
      with the content at 0. */
  lemma ScenarioNoRightPanel()
    ensures var s := Mounted(Some(Panel(80.0, 80.0)), None);
            var cfg := Config(10.0, false, true, false);
            var g := RunGesture(HorizontalContext(), Point(100.0, 200.0), false,
                                [Point(95.0, 200.0), Point(50.0, 200.0)], Point(50.0, 200.0));
            var inputs := WithSwiped(g.emitted, 0.0);
            && |inputs| == 3
            && RunPans(s, cfg, inputs[..2]).state.frame == Some(0.0)
            && RunPans(s, cfg, inputs).state.innerRevealed == Closed
            && RunPans(s, cfg, inputs).notes ==
                 [ActiveNote(true), ActiveNote(false), UpdateRevealedNote(Closed), ClosedNote]
            && RunFrame(RunPans(s, cfg, inputs).state).contentRef == Some(Content(Some(0.0)))
  {
    HorizontalGesture(Point(100.0, 200.0), 95.0, 50.0);
    SessionNoRightPanel(RunGesture(HorizontalContext(), Point(100.0, 200.0), false,
                                   [Point(95.0, 200.0), Point(50.0, 200.0)], Point(50.0, 200.0)).emitted);
  }

  /** The controller side of the left-reveal scenario, for any event stream of that shape. */
  lemma SessionRevealLeft(evs: seq<PanEvent>)
    requires FirstMoveFinal(evs, 40.0, 40.0)
    ensures var s := Mounted(Some(Panel(80.0, 80.0)), None);
            var r := RunPans(s, Config(10.0, false, true, false), WithSwiped(evs, 0.0));
            && r.state.innerRevealed == Open(Left)
            && r.notes == [ActiveNote(true), ActiveNote(false), UpdateRevealedNote(Open(Left)),
                           RevealedNote(Left), LeftRevealedNote]
            && RunFrame(r.state).contentRef == Some(Content(Some(80.0)))
  {
    var s := Mounted(Some(Panel(80.0, 80.0)), None);
    var cfg := Config(10.0, false, true, false);
    var inputs := WithSwiped(evs, 0.0);
    assert inputs == [PanInput(evs[0], 0.0), PanInput(evs[1], 0.0), PanInput(evs[2], 0.0)];
    PansOfThree(s, cfg, inputs[0], inputs[1], inputs[2]);
    var o1 := OnPan(s, cfg, evs[0], 0.0);
    assert o1.state.isActive && o1.notes == [ActiveNote(true)] && o1.state.leftActionsWidth == 80.0;
    var o2 := OnPan(o1.state, cfg, evs[1], 0.0);
    assert o2.state.isActive && o2.notes == [] && o2.state.leftActionsWidth == 80.0 && o2.state.startLeft == 0.0;
    var o3 := OnPan(o2.state, cfg, evs[2], 0.0);
    assert o3.state.innerRevealed == Open(Left) && o3.state.frame == Some(80.0);
  }

  /** Scenario with an 80px left panel and a 10px threshold: dragging 40px to
      the right and releasing there settles left, and the content snaps to +80. */
  lemma ScenarioRevealLeft()
    ensures var s := Mounted(Some(Panel(80.0, 80.0)), None);
            var cfg := Config(10.0, false, true, false);
            var g := RunGesture(HorizontalContext(), Point(0.0, 0.0), false,
                                [Point(5.0, 0.0), Point(40.0, 0.0)], Point(40.0, 0.0));
            var r := RunPans(s, cfg, WithSwiped(g.emitted, 0.0));
            && r.state.innerRevealed == Open(Left)
            && r.notes == [ActiveNote(true), ActiveNote(false), UpdateRevealedNote(Open(Left)),
                           RevealedNote(Left), LeftRevealedNote]
            && RunFrame(r.state).contentRef == Some(Content(Some(80.0)))
  {
    HorizontalGesture(Point(0.0, 0.0), 5.0, 40.0);
    SessionRevealLeft(RunGesture(HorizontalContext(), Point(0.0, 0.0), false,
                                 [Point(5.0, 0.0), Point(40.0, 0.0)], Point(40.0, 0.0)).emitted);
  }

  /** The controller side of the drag-back scenario, for any event stream of that shape. */
  lemma SessionDragBackCloses(evs: seq<PanEvent>)
    requires FirstMoveFinal(evs, -75.0, -75.0)
    ensures var s := Mounted(Some(Panel(80.0, 80.0)), None).(innerRevealed := Open(Left), leftActionsWidth := 80.0);
            var r := RunPans(s, Config(10.0, false, true, false), WithSwiped(evs, 80.0));
            && r.state.innerRevealed == Closed
            && r.notes == [ActiveNote(true), ActiveNote(false), UpdateRevealedNote(Closed), ClosedNote]
            && RunFrame(r.state).contentRef == Some(Content(Some(0.0)))
  {
    var s := Mounted(Some(Panel(80.0, 80.0)), None).(innerRevealed := Open(Left), leftActionsWidth := 80.0);
    var cfg := Config(10.0, false, true, false);
    var inputs := WithSwiped(evs, 80.0);
    assert inputs == [PanInput(evs[0], 80.0), PanInput(evs[1], 80.0), PanInput(evs[2], 80.0)];
    PansOfThree(s, cfg, inputs[0], inputs[1], inputs[2]);
    var o1 := OnPan(s, cfg, evs[0], 80.0);
    assert o1.state.isActive && o1.notes == [ActiveNote(true)] && o1.state.startLeft == 80.0;
    assert o1.state.leftActionsWidth == 80.0;
    var o2 := OnPan(o1.state, cfg, evs[1], 80.0);
    assert o2.state.isActive && o2.notes == [] && o2.state.startLeft == 80.0 && o2.state.leftActionsWidth == 80.0;
    var o3 := OnPan(o2.state, cfg, evs[2], 80.0);
    assert o3.state.innerRevealed == Closed;
  }

  /** Scenario starting left-revealed at 80px: dragging back by 75px (at
      least the threshold, short of the panel width) settles closed. */
  lemma ScenarioDragBackCloses()
    ensures var s := Mounted(Some(Panel(80.0, 80.0)), None).(innerRevealed := Open(Left), leftActionsWidth := 80.0);
            var cfg := Config(10.0, false, true, false);
            var g := RunGesture(HorizontalContext(), Point(100.0, 0.0), false,
                                [Point(95.0, 0.0), Point(25.0, 0.0)], Point(25.0, 0.0));
            var r := RunPans(s, cfg, WithSwiped(g.emitted, 80.0));
            && r.state.innerRevealed == Closed
            && r.notes == [ActiveNote(true), ActiveNote(false), UpdateRevealedNote(Closed), ClosedNote]
            && RunFrame(r.state).contentRef == Some(Content(Some(0.0)))
  {
    HorizontalGesture(Point(100.0, 0.0), 95.0, 25.0);
    SessionDragBackCloses(RunGesture(HorizontalContext(), Point(100.0, 0.0), false,
                                     [Point(95.0, 0.0), Point(25.0, 0.0)], Point(25.0, 0.0)).emitted);
  }

  /** The threshold is inclusive: from the closed position a release exactly
      `threshold` away settles closed, one pixel further settles on the
      side dragged to when its panel exists. */
  lemma ThresholdBoundary(s: SwipeState, cfg: Config, pan: PanEvent)
    requires s.isActive && s.startLeft == 0.0 && s.leftRef.Some?
    requires !cfg.disabled && !pan.isFirst && pan.isFinal
    requires 0.0 <= cfg.threshold
    ensures pan.offset.x == cfg.threshold ==> OnPan(s, cfg, pan, 0.0).state.innerRevealed == Closed
    ensures pan.offset.x == cfg.threshold + 1.0 ==> OnPan(s, cfg, pan, 0.0).state.innerRevealed == Open(Left)
  {
  }
}

=== FILE: swipe_state.dfy ===
/** The per-control session of `useSwipeState.ts`, and the notifications
    the control emits. Element refs are plain data: a panel ref carries the
    two widths the composables read from it, the content ref carries the
    horizontal transform last written to it. */
module SwipeSession {
  import opened Common

  datatype Side = Left | Right

  /** `innerRevealed`: `false`, `"left"` or `"right"`. */
  datatype Revealed = Closed | Open(side: Side)

  /** An action panel, with its `clientWidth` and `offsetWidth`. */
  datatype Panel = Panel(clientWidth: Width, offsetWidth: Width)

  /** The content element; `transform` is the `translateX` offset written to
      its style, absent until the animator first writes one. */
  datatype Content = Content(transform: Option<real>)

  /** The root element; the model only needs to know whether it is mounted. */
  datatype Root = Root

  /** `SwipeState`. The pending animation frame is represented by the target
      offset it will apply; the auto-idle timer by an opaque handle. */
  datatype SwipeState = SwipeState(
    innerRevealed: Revealed,
    isActive: bool,
    leftActionsWidth: Width,
    rightActionsWidth: Width,
    startLeft: real,
    timer: Option<int>,
    frame: Option<real>,
    contentRef: Option<Content>,
    leftRef: Option<Panel>,
    rightRef: Option<Panel>,
    elRef: Option<Root>)

  /** The control's notifications: `active`, `update:revealed`, `closed`,
      `revealed`, `leftRevealed`, `rightRevealed`. The `close` callback the
      last three carry is not modelled. */
  datatype Note =
    | ActiveNote(on: bool)
    | UpdateRevealedNote(value: Revealed)
    | ClosedNote
    | RevealedNote(side: Side)
    | LeftRevealedNote
    | RightRevealedNote

  /** What an operation returns: the new session and the notifications it emitted, in order. */
  datatype Outcome = Outcome(state: SwipeState, notes: seq<Note>)

  /** The values of the `active` notifications among `notes`, in order. */
  function ActiveFlags(notes: seq<Note>): (flags: seq<bool>)
    ensures |flags| <= |notes|
    decreases |notes|
  {
    if |notes| == 0 then []
    else (if notes[0].ActiveNote? then [notes[0].on] else []) + ActiveFlags(notes[1..])
  }

  lemma {:induction false} ActiveFlagsAppend(a: seq<Note>, b: seq<Note>)
    ensures ActiveFlags(a + b) == ActiveFlags(a) + ActiveFlags(b)
    decreases |a|
  {
    if |a| > 0 {
      assert (a + b)[1..] == a[1..] + b;
      ActiveFlagsAppend(a[1..], b);
    } else {
      assert a + b == b;
    }
  }

  /** No gesture in progress and no animation frame waiting. */
  predicate Idle(s: SwipeState) {
    !s.isActive && s.frame.None?
  }

  /** `useSwipeState(initialRevealed)`: an idle session with zero widths and
      offset, no timer, no frame, no elements, revealing `initialRevealed`. */
  function UseSwipeState(initialRevealed: Revealed): (s: SwipeState)
    ensures Idle(s)
    ensures s.innerRevealed == initialRevealed
    ensures s.leftActionsWidth == 0.0 && s.rightActionsWidth == 0.0
    ensures s.startLeft == 0.0
    ensures s.timer.None?
    ensures s.contentRef.None? && s.leftRef.None? && s.rightRef.None? && s.elRef.None?
  {
    SwipeState(
      innerRevealed := initialRevealed,
      isActive := false,
      leftActionsWidth := 0.0,
      rightActionsWidth := 0.0,
      startLeft := 0.0,
      timer := None,
      frame := None,
      contentRef := None,
      leftRef := None,
      rightRef := None,
      elRef := None)
  }

  /** `useSwipeState()` without an argument starts closed. */
  function DefaultSwipeState(): (s: SwipeState)
    ensures Idle(s) && s.innerRevealed == Closed
  {
    UseSwipeState(Closed)
  }
}

=== FILE: touch_pan.dfy ===
/** The pan-gesture recognizer of `touch-horizontal-pan.js` as a pure state
    machine. A `Context` is the directive's per-element `ctx`: its direction
    capability, the `mouseAllDir` modifier its closures read, the transient
    gesture record `ctx.event`, and one flag standing for the document-wide
    side effects (grabbing cursor, pointer-event and selection suppression).
    Positions are inputs; `Start` returns the new context, and `Move` and
    `End` also return the pan events handed to the handler. */
module TouchPan {
  import opened Common

  /** The binding modifiers the recognizer reads. */
  datatype Modifiers = Modifiers(horizontal: bool, vertical: bool, mouseAllDir: bool)

  /** `ctx.direction`; a field `getDirection` leaves unset reads as false. */
  datatype Capability = Capability(horizontal: bool, vertical: bool, all: bool)

  /** A viewport position, as `position(evt)` returns it. */
  datatype Point = Point(left: real, top: real)

  datatype Vec = Vec(x: real, y: real)

  /** The `direction` label of a pan event. */
  datatype PanDirection = PanLeft | PanRight | PanUp | PanDown

  /** One emission of the recognizer. The source event and the wall-clock
      duration are not modelled. */
  datatype PanEvent = PanEvent(
    position: Point,
    direction: PanDirection,
    isFirst: bool,
    isFinal: bool,
    isMouse: bool,
    distance: Vec,
    offset: Vec,
    delta: Vec)

  /** `ctx.event`: origin, input source, classification flags and the last
      emitted position. */
  datatype Gesture = Gesture(
    x: real, y: real,
    mouse: bool,
    detected: bool,
    abort: bool,
    isFirst: bool,
    isFinal: bool,
    lastX: real, lastY: real)

  datatype Context = Context(
    direction: Capability,
    mouseAllDir: bool,
    event: Option<Gesture>,
    grabbing: bool)

  /** The result of one transition: the new context and what the handler received. */
  datatype Step = Step(ctx: Context, emitted: seq<PanEvent>)

  /** A capability allows at least one axis, and `all` means both. */
  predicate ValidCapability(d: Capability) {
    && (d.horizontal || d.vertical)
    && (d.all <==> d.horizontal && d.vertical)
  }

  /** `getDirection`: no axis modifier, or both, allows every direction;
      exactly one restricts the recognizer to that axis. */
  function GetDirection(mod: Modifiers): (d: Capability)
    ensures ValidCapability(d)
    ensures mod.horizontal == mod.vertical ==> d == Capability(true, true, true)
    ensures mod.horizontal != mod.vertical ==>
              d == Capability(mod.horizontal, mod.vertical, false)
  {
    var none := !mod.horizontal && !mod.vertical;
    Capability(
      horizontal := mod.horizontal || none,
      vertical := mod.vertical || none,
      all := none || (mod.horizontal && mod.vertical))
  }

  /** True when the axis the label names is the one whose signed offset it reports. */
  predicate LabelMatchesOffset(d: PanDirection, offset: Vec) {
    match d
    case PanLeft => offset.x < 0.0
    case PanRight => 0.0 <= offset.x
    case PanUp => offset.y < 0.0
    case PanDown => 0.0 <= offset.y
  }

  predicate IsHorizontalLabel(d: PanDirection) {
    d == PanLeft || d == PanRight
  }

  /** `processChanges`: the pan event for position `pos`, with offset and
      distance measured from the gesture origin and delta from the last
      emitted point. */
  function ProcessChanges(dir: Capability, g: Gesture, pos: Point, isFinal: bool): (e: PanEvent)
    ensures e.position == pos
    ensures g.x + e.offset.x == pos.left && g.y + e.offset.y == pos.top
    ensures e.distance == Vec(Abs(e.offset.x), Abs(e.offset.y))
    ensures g.lastX + e.delta.x == pos.left && g.lastY + e.delta.y == pos.top
    ensures e.isFirst == g.isFirst && e.isFinal == isFinal && e.isMouse == g.mouse
    ensures LabelMatchesOffset(e.direction, e.offset)
    ensures dir.horizontal && !dir.vertical ==> IsHorizontalLabel(e.direction)
    ensures !dir.horizontal && dir.vertical ==> !IsHorizontalLabel(e.direction)
    ensures dir.horizontal == dir.vertical ==>
              (IsHorizontalLabel(e.direction) <==> e.distance.y <= e.distance.x)
  {
    var distX := pos.left - g.x;
    var distY := pos.top - g.y;
    var absDistX := Abs(distX);
    var absDistY := Abs(distY);
    var direction :=
      if dir.horizontal && !dir.vertical then (if distX < 0.0 then PanLeft else PanRight)
      else if !dir.horizontal && dir.vertical then (if distY < 0.0 then PanUp else PanDown)
      else if absDistX >= absDistY then (if distX < 0.0 then PanLeft else PanRight)
      else (if distY < 0.0 then PanUp else PanDown);
    PanEvent(
      position := pos,
      direction := direction,
      isFirst := g.isFirst,
      isFinal := isFinal,
      isMouse := g.mouse,
      distance := Vec(absDistX, absDistY),
      offset := Vec(distX, distY),
      delta := Vec(pos.left - g.lastX, pos.top - g.lastY))
  }

  /** `shouldTrigger`: always with both axes allowed, otherwise only when the
      delta along the one allowed axis is nonzero. A capability with no axis
      makes `shouldTrigger` return `undefined`, which reads as false. */
  function ShouldTrigger(dir: Capability, changes: PanEvent): (b: bool)
    ensures b <==> || (dir.horizontal && dir.vertical)
                   || (dir.horizontal && changes.delta.x != 0.0)
                   || (dir.vertical && changes.delta.y != 0.0)
  {
    if dir.horizontal && dir.vertical then true
    else if dir.horizontal && !dir.vertical then Abs(changes.delta.x) > 0.0
    else if !dir.horizontal && dir.vertical then Abs(changes.delta.y) > 0.0
    else false
  }

  /** The gesture record a press at `pos` creates. */
  function FreshGesture(pos: Point, mouse: bool): Gesture {
    Gesture(
      x := pos.left, y := pos.top,
      mouse := mouse,
      detected := false, abort := false,
      isFirst := true, isFinal := false,
      lastX := pos.left, lastY := pos.top)
  }

  /** `ctx.start`: a press at `pos` replaces any previous gesture record;
      nothing is emitted and the document effects are left as they are. */
  function Start(ctx: Context, pos: Point, mouse: bool): (c: Context)
    ensures c.event.Some?
    ensures c.event.value.x == c.event.value.lastX == pos.left
    ensures c.event.value.y == c.event.value.lastY == pos.top
    ensures !c.event.value.detected && !c.event.value.abort
    ensures c.event.value.isFirst && !c.event.value.isFinal
    ensures c.event.value.mouse == mouse
    ensures c.direction == ctx.direction && c.mouseAllDir == ctx.mouseAllDir
    ensures c.grabbing == ctx.grabbing
  {
    ctx.(event := Some(FreshGesture(pos, mouse)))
  }

  /** `ctx.mouseStart`: a mouse press starts a gesture only with the primary button. */
  function MouseStart(ctx: Context, pos: Point, leftClick: bool): (c: Context)
    ensures leftClick ==> c == Start(ctx, pos, true)
    ensures !leftClick ==> c == ctx
  {
    if leftClick then Start(ctx, pos, true) else ctx
  }

  /** The emitting half of `ctx.move`, once the direction is detected. */
  function Track(ctx: Context, g: Gesture, pos: Point): (r: Step)
    requires ctx.event == Some(g)
    ensures r.ctx.direction == ctx.direction && r.ctx.mouseAllDir == ctx.mouseAllDir
    ensures r.ctx.grabbing == ctx.grabbing
    ensures r.ctx.event.Some?
    ensures |r.emitted| == 0 ==> r.ctx == ctx
    ensures |r.emitted| == 1 ==>
              && r.emitted[0] == ProcessChanges(ctx.direction, g, pos, false)
              && r.ctx.event == Some(g.(lastX := pos.left, lastY := pos.top, isFirst := false))
    ensures |r.emitted| == 1 <==> ShouldTrigger(ctx.direction, ProcessChanges(ctx.direction, g, pos, false))
    ensures !ShouldTrigger(ctx.direction, ProcessChanges(ctx.direction, g, pos, false)) ==> r == Step(ctx, [])
  {
    var changes := ProcessChanges(ctx.direction, g, pos, false);
    if ShouldTrigger(ctx.direction, changes) then
      var g' := g.(lastX := changes.position.left, lastY := changes.position.top, isFirst := false);
      Step(ctx.(event := Some(g')), [changes])
    else
      Step(ctx, [])
  }

  /** The changes a move reports do not depend on the record's classification flags. */
  lemma ChangesIgnoreClassification(dir: Capability, g: Gesture, pos: Point, isFinal: bool, detected: bool, abort: bool)
    ensures ProcessChanges(dir, g.(detected := detected, abort := abort), pos, isFinal) ==
            ProcessChanges(dir, g, pos, isFinal)
  {
  }

  /** True when the detecting move has to decide `abort`: the capability is
      restricted to one axis, unless a mouse gesture runs with `mouseAllDir`. */
  predicate AbortCheckApplies(ctx: Context, g: Gesture) {
    !ctx.direction.all && (!g.mouse || !ctx.mouseAllDir)
  }

  /** The detecting move of `ctx.move`: `detected` is committed, `abort` is
      decided once, the document effects go on unless the gesture is
      aborted, and a gesture that is not aborted is tracked right away. */
  function Detect(ctx: Context, g: Gesture, pos: Point): (r: Step)
    requires ctx.event == Some(g) && !g.detected && !g.abort
    ensures r.ctx.direction == ctx.direction && r.ctx.mouseAllDir == ctx.mouseAllDir
    ensures r.ctx.event.Some? && r.ctx.event.value.detected
    ensures r.ctx.event.value.x == g.x && r.ctx.event.value.y == g.y
    ensures r.ctx.event.value.mouse == g.mouse && r.ctx.event.value.isFinal == g.isFinal
    ensures var dx := Abs(pos.left - g.x);
            var dy := Abs(pos.top - g.y);
            r.ctx.event.value.abort ==
              (AbortCheckApplies(ctx, g) && (if ctx.direction.vertical then dx > dy else dx < dy))
    ensures r.ctx.grabbing == (ctx.grabbing || !r.ctx.event.value.abort)
    ensures |r.emitted| <= 1
    ensures |r.emitted| == 1 ==>
              && !r.ctx.event.value.abort && !r.ctx.event.value.isFirst
              && r.ctx.event.value.lastX == pos.left && r.ctx.event.value.lastY == pos.top
              && r.emitted[0] == ProcessChanges(ctx.direction, g, pos, false)
  {
    var distX := Abs(pos.left - g.x);
    var distY := Abs(pos.top - g.y);
    var abort :=
      if AbortCheckApplies(ctx, g) then
        (if ctx.direction.vertical then distX > distY else distX < distY)
      else g.abort;
    var g' := g.(detected := true, abort := abort);
    var ctx' := ctx.(event := Some(g'), grabbing := if !abort then true else ctx.grabbing);
    ChangesIgnoreClassification(ctx.direction, g, pos, false, true, abort);
    if abort then Step(ctx', []) else Track(ctx', g', pos)
  }

  /** `ctx.move`. Ignored without a record or once aborted. Before detection
      a move whose horizontal and vertical displacements are equal changes
      nothing; any other move commits `detected`, decides `abort` once, turns
      on the document effects unless aborted, and is then tracked. */
  function Move(ctx: Context, pos: Point): (r: Step)
    ensures ctx.event.None? || ctx.event.value.abort ==> r == Step(ctx, [])
    ensures r.ctx.direction == ctx.direction && r.ctx.mouseAllDir == ctx.mouseAllDir
    ensures ctx.event.Some? ==>
              && r.ctx.event.Some?
              && r.ctx.event.value.x == ctx.event.value.x
              && r.ctx.event.value.y == ctx.event.value.y
              && r.ctx.event.value.mouse == ctx.event.value.mouse
              && r.ctx.event.value.isFinal == ctx.event.value.isFinal
    // direction lock: once detected, classification never changes again
    // once detected, a move is tracked: it emits iff `shouldTrigger` holds
    ensures ctx.event.Some? && ctx.event.value.detected && !ctx.event.value.abort ==>
              r == Track(ctx, ctx.event.value, pos)
    ensures ctx.event.Some? && ctx.event.value.detected ==>
              && r.ctx.event.value.detected
              && r.ctx.event.value.abort == ctx.event.value.abort
    // equal displacement before detection: nothing happens
    ensures ctx.event.Some? && !ctx.event.value.detected &&
            Abs(pos.left - ctx.event.value.x) == Abs(pos.top - ctx.event.value.y) ==>
              r == Step(ctx, [])
    // the detecting move: abort is assigned there and only there
    ensures ctx.event.Some? && !ctx.event.value.detected && !ctx.event.value.abort &&
            Abs(pos.left - ctx.event.value.x) != Abs(pos.top - ctx.event.value.y) ==>
              var g := ctx.event.value;
              var dx := Abs(pos.left - g.x);
              var dy := Abs(pos.top - g.y);
              && r.ctx.event.value.detected
              && r.ctx.event.value.abort ==
                   (AbortCheckApplies(ctx, g) && (if ctx.direction.vertical then dx > dy else dx < dy))
              // the document effects go on only when the gesture is not aborted
              && r.ctx.grabbing == (ctx.grabbing || !r.ctx.event.value.abort)
    // every other move leaves the document effects alone
    ensures || ctx.event.None? || ctx.event.value.detected || ctx.event.value.abort
            || Abs(pos.left - ctx.event.value.x) == Abs(pos.top - ctx.event.value.y) ==>
              r.ctx.grabbing == ctx.grabbing
    ensures |r.emitted| <= 1
    ensures |r.emitted| == 1 ==>
              && r.ctx.event.Some? && r.ctx.event.value.detected && !r.ctx.event.value.abort
              && !r.ctx.event.value.isFirst
              && r.ctx.event.value.lastX == pos.left && r.ctx.event.value.lastY == pos.top
              && r.emitted[0].position == pos && !r.emitted[0].isFinal
              && r.emitted[0].isFirst == ctx.event.value.isFirst
    // the handler receives the processed changes against the record as it was
    ensures |r.emitted| == 1 ==>
              r.emitted[0] == ProcessChanges(ctx.direction, ctx.event.value, pos, false)
  {
    match ctx.event
    case None => Step(ctx, [])
    case Some(g) =>
      if g.abort then Step(ctx, [])
      else if g.detected then Track(ctx, g, pos)
      else if Abs(pos.left - g.x) == Abs(pos.top - g.y) then Step(ctx, [])
      else Detect(ctx, g, pos)
  }

  /** `ctx.end` (touch end, touch cancel, mouse up). The document effects are
      always reverted. Exactly one final event, measured against the origin,
      is emitted iff the gesture was detected, not aborted, and already
      emitted an event. The record itself is kept: `touch-horizontal-pan.js` never clears it. */
  function End(ctx: Context, pos: Point): (r: Step)
    ensures ctx.event.None? ==> r == Step(ctx, [])
    ensures ctx.event.Some? ==> !r.ctx.grabbing
    ensures r.ctx.event == ctx.event
    ensures r.ctx.direction == ctx.direction && r.ctx.mouseAllDir == ctx.mouseAllDir
    ensures |r.emitted| <= 1
    ensures |r.emitted| == 1 <==>
              ctx.event.Some? && ctx.event.value.detected && !ctx.event.value.abort &&
              !ctx.event.value.isFirst
    ensures |r.emitted| == 1 ==>
              && r.emitted[0].isFinal && !r.emitted[0].isFirst
              && r.emitted[0].position == pos
              && ctx.event.value.x + r.emitted[0].offset.x == pos.left
              && ctx.event.value.y + r.emitted[0].offset.y == pos.top
              && r.emitted[0] == ProcessChanges(ctx.direction, ctx.event.value, pos, true)
  {
    match ctx.event
    case None => Step(ctx, [])
    case Some(g) =>
      var ctx' := ctx.(grabbing := false);
      if g.abort || !g.detected || g.isFirst then Step(ctx', [])
      else Step(ctx', [ProcessChanges(ctx.direction, g, pos, true)])
  }
}

=== FILE: touch_pan_gesture.dfy ===
/** Whole gestures of the recognizer: a press, any number of moves and a
    release. The lemmas here show that the handler always receives the
    canonical stream first, intermediate*, final, with offsets measured from
    the press position and deltas chaining consecutive emissions, and that
    the classification of a gesture is frozen once made. */
module TouchPanGesture {
  import opened Common
  import opened TouchPan

  /** The moves of one gesture, applied in order; emissions are concatenated. */
  function RunMoves(ctx: Context, moves: seq<Point>): (r: Step)
    ensures |r.emitted| <= |moves|
    ensures r.ctx.direction == ctx.direction && r.ctx.mouseAllDir == ctx.mouseAllDir
    ensures ctx.event.None? ==> r == Step(ctx, [])
    decreases |moves|
  {
    if |moves| == 0 then Step(ctx, [])
    else
      var before := RunMoves(ctx, moves[..|moves| - 1]);
      var last := Move(before.ctx, moves[|moves| - 1]);
      Step(last.ctx, before.emitted + last.emitted)
  }

  /** A complete gesture: press at `origin`, the moves, release at `release`. */
  function RunGesture(ctx: Context, origin: Point, mouse: bool, moves: seq<Point>, release: Point): Step {
    var tracked := RunMoves(Start(ctx, origin, mouse), moves);
    var ended := End(tracked.ctx, release);
    Step(ended.ctx, tracked.emitted + ended.emitted)
  }

  /** The offset of a position from the gesture origin. */
  function OffsetFrom(origin: Point, p: Point): Vec {
    Vec(p.left - origin.left, p.top - origin.top)
  }

  /** The shape of what the handler has received so far: only the first
      event is flagged first, none is final, offsets are taken from the
      origin, and every delta is the step between consecutive offsets (the
      first one's step is from the origin); distances are absolute offsets. */
  ghost predicate TrackedStream(evs: seq<PanEvent>, origin: Point) {
    && (forall i :: 0 <= i < |evs| ==> (evs[i].isFirst <==> i == 0))
    && (forall i :: 0 <= i < |evs| ==> !evs[i].isFinal)
    && (forall i :: 0 <= i < |evs| ==> evs[i].offset == OffsetFrom(origin, evs[i].position))
    && (forall i :: 0 <= i < |evs| ==> evs[i].distance == Vec(Abs(evs[i].offset.x), Abs(evs[i].offset.y)))
    && (|evs| > 0 ==> evs[0].delta == evs[0].offset)
    && (forall i :: 0 < i < |evs| ==>
          evs[i].delta == Vec(evs[i].offset.x - evs[i - 1].offset.x, evs[i].offset.y - evs[i - 1].offset.y))
  }

  /** The invariant of a gesture in progress, relating the record to what was emitted. */
  ghost predicate Tracking(ctx: Context, origin: Point, emitted: seq<PanEvent>) {
    && ctx.event.Some?
    && var g := ctx.event.value;
    && g.x == origin.left && g.y == origin.top
    && !g.isFinal
    && (g.abort ==> g.detected)
    && (g.detected && !g.abort ==> ctx.grabbing)
    && (g.isFirst <==> |emitted| == 0)
    && (|emitted| == 0 ==> g.lastX == g.x && g.lastY == g.y)
    && (|emitted| > 0 ==>
          && g.detected && !g.abort
          && g.lastX == emitted[|emitted| - 1].position.left
          && g.lastY == emitted[|emitted| - 1].position.top)
    && TrackedStream(emitted, origin)
  }

  lemma StartEstablishesTracking(ctx: Context, origin: Point, mouse: bool)
    ensures Tracking(Start(ctx, origin, mouse), origin, [])
  {
  }

  /** One move keeps the invariant, extending the stream by what it emitted. */
  lemma MoveKeepsTracking(ctx: Context, origin: Point, emitted: seq<PanEvent>, pos: Point)
    requires Tracking(ctx, origin, emitted)
    ensures Tracking(Move(ctx, pos).ctx, origin, emitted + Move(ctx, pos).emitted)
  {
    var m := Move(ctx, pos);
    var g := ctx.event.value;
    if |m.emitted| == 1 {
      var e := m.emitted[0];
      var evs := emitted + [e];
      assert e.offset == OffsetFrom(origin, pos);
      if |emitted| == 0 {
        assert g.lastX == origin.left && g.lastY == origin.top;
        assert e.delta == e.offset;
      } else {
        var p := emitted[|emitted| - 1];
        assert p.offset == OffsetFrom(origin, p.position);
        assert evs[|evs| - 2] == p;
      }
      assert TrackedStream(evs, origin);
    } else {
      assert m.emitted == [];
      assert emitted + m.emitted == emitted;
    }
  }

  /** Any run of moves from a started gesture keeps the invariant. */
  lemma {:induction false} RunMovesKeepsTracking(ctx: Context, origin: Point, moves: seq<Point>)
    requires Tracking(ctx, origin, [])
    ensures Tracking(RunMoves(ctx, moves).ctx, origin, RunMoves(ctx, moves).emitted)
    decreases |moves|
  {
    if |moves| > 0 {
      var front := moves[..|moves| - 1];
      var before := RunMoves(ctx, front);
      RunMovesKeepsTracking(ctx, origin, front);
      MoveKeepsTracking(before.ctx, origin, before.emitted, moves[|moves| - 1]);
    }
  }

  /** A whole gesture hands the handler first, intermediate*, final: only the
      first event is flagged first, only the last can be final, a final event
      comes only after a first one, every offset is taken from the press
      position, and the document effects are off afterwards. */
  lemma {:induction false} GestureEmitsCanonicalStream(
    ctx: Context, origin: Point, mouse: bool, moves: seq<Point>, release: Point)
    ensures var r := RunGesture(ctx, origin, mouse, moves, release);
            && (forall i :: 0 <= i < |r.emitted| ==> (r.emitted[i].isFirst <==> i == 0))
            && (forall i :: 0 <= i < |r.emitted| ==> (r.emitted[i].isFinal ==> 0 < i == |r.emitted| - 1))
            && (forall i :: 0 <= i < |r.emitted| ==>
                  r.emitted[i].offset == OffsetFrom(origin, r.emitted[i].position))
            && (forall i :: 0 <= i < |r.emitted| ==>
                  r.emitted[i].distance == Vec(Abs(r.emitted[i].offset.x), Abs(r.emitted[i].offset.y)))
            && !r.ctx.grabbing
  {
    var started := Start(ctx, origin, mouse);
    StartEstablishesTracking(ctx, origin, mouse);
    var tracked := RunMoves(started, moves);
    RunMovesKeepsTracking(started, origin, moves);
    var ended := End(tracked.ctx, release);
    var evs := tracked.emitted + ended.emitted;
    if |ended.emitted| == 1 {
      assert |tracked.emitted| > 0;
      assert ended.emitted[0].offset == OffsetFrom(origin, release);
    } else {
      assert evs == tracked.emitted;
    }
    forall i | 0 <= i < |evs|
      ensures evs[i].distance == Vec(Abs(evs[i].offset.x), Abs(evs[i].offset.y))
    {
      if i < |tracked.emitted| {
        assert evs[i] == tracked.emitted[i];
      } else {
        assert evs[i] == ended.emitted[0];
      }
    }
  }

  /** The release emits its final event exactly when some event was already emitted. */
  lemma {:induction false} FinalIffTracked(
    ctx: Context, origin: Point, mouse: bool, moves: seq<Point>, release: Point)
    ensures var tracked := RunMoves(Start(ctx, origin, mouse), moves);
            |End(tracked.ctx, release).emitted| == 1 <==> |tracked.emitted| > 0
  {
    StartEstablishesTracking(ctx, origin, mouse);
    RunMovesKeepsTracking(Start(ctx, origin, mouse), origin, moves);
  }

  /** Direction lock: after detection no later move changes `detected` or `abort`. */
  lemma {:induction false} ClassificationFrozen(ctx: Context, moves: seq<Point>)
    requires ctx.event.Some? && ctx.event.value.detected
    ensures RunMoves(ctx, moves).ctx.event.Some?
    ensures RunMoves(ctx, moves).ctx.event.value.detected
    ensures RunMoves(ctx, moves).ctx.event.value.abort == ctx.event.value.abort
    decreases |moves|
  {
    if |moves| > 0 {
      ClassificationFrozen(ctx, moves[..|moves| - 1]);
    }
  }

  /** An aborted gesture ignores every later move and emits nothing. */
  lemma {:induction false} AbortedGestureIsSilent(ctx: Context, moves: seq<Point>)
    requires ctx.event.Some? && ctx.event.value.abort
    ensures RunMoves(ctx, moves) == Step(ctx, [])
    decreases |moves|
  {
    if |moves| > 0 {
      AbortedGestureIsSilent(ctx, moves[..|moves| - 1]);
    }
  }

  /** With a valid capability, the detecting move of a gesture that is not
      aborted always hands over the first event, unless the abort check was
      skipped for a mouse gesture with `mouseAllDir`. */
  lemma DetectionEmitsFirst(ctx: Context, origin: Point, pos: Point)
    requires ValidCapability(ctx.direction)
    requires Tracking(ctx, origin, [])
    requires !ctx.event.value.detected
    requires Abs(pos.left - origin.left) != Abs(pos.top - origin.top)
    ensures var r := Move(ctx, pos);
            || r.ctx.event.value.abort
            || (|r.emitted| == 1 && r.emitted[0].isFirst)
            || (!ctx.direction.all && ctx.event.value.mouse && ctx.mouseAllDir)
  {
    var g := ctx.event.value;
    var r := Move(ctx, pos);
    if !r.ctx.event.value.abort && !(!ctx.direction.all && g.mouse && ctx.mouseAllDir) {
      var c := ProcessChanges(ctx.direction, g, pos, false);
      assert c.delta == Vec(pos.left - origin.left, pos.top - origin.top);
      assert ShouldTrigger(ctx.direction, c);
    }
  }

  /** As written, a release keeps the gesture record, so a move that still
      reaches `ctx.move` afterwards (a second finger on a touch screen) is
      tracked on it: it hands over an intermediate event after the final
      one, and the next release hands over a second final event. */
  lemma MoveAfterTrackedReleaseEmits(ctx: Context, release: Point, pos: Point, again: Point)
    requires ctx.event.Some? && ctx.event.value.detected && !ctx.event.value.abort
    requires !ctx.event.value.isFirst
    requires ShouldTrigger(ctx.direction, ProcessChanges(ctx.direction, ctx.event.value, pos, false))
    ensures var ended := End(ctx, release);
            var moved := Move(ended.ctx, pos);
            var endedAgain := End(moved.ctx, again);
            && |ended.emitted| == 1 && ended.emitted[0].isFinal
            && |moved.emitted| == 1 && !moved.emitted[0].isFinal
            && |endedAgain.emitted| == 1 && endedAgain.emitted[0].isFinal
  {
  }
}
